=== FILE: README.md ===
# filetrack registry, modelled in Dafny

`filetrack.c` wraps `fopen`, `tmpfile`, `freopen`, `fclose` and `remove` so a
program can find its own file-handle mistakes. In the diagnostic build it
keeps two stores:

- an **entry table** keyed by the stream. Each entry holds the bounded
  filename, the bounded mode, how the stream was opened and closed, and the
  call sites of the open, the last mode change and the close;
- a **filename index** from the bounded filename to the stream.

The entries are never deleted in this build: a close only marks its entry.
This lets the library report:

- a double close;
- a `remove` of a file whose most recently indexed stream is still open;
- at process exit, every stream that was never closed. The exit sweep
  (`quit`) reports each such stream as a leak and closes it through the
  fclose path.

The project models that build in three layers:

- `types.dfy` (module `Types`): streams, the open and close kinds, call
  sites, entries, and the single fault kind a call reports. It also holds the
  constants and the bounded string copy.
- `transitions.dfy` (module `Transitions`), `sweep.dfy` (module `Sweep`): the
  registry as a value, `Registry(entries, index, initialized)`. Every public
  operation is a function from the state before the call to the state after
  it, the value it returns and the fault it records. `Valid` is the
  invariant every reachable registry keeps. `properties.dfy` relates several calls:
  module `Properties` states what the library promises, and module
  `GuardLimits` states what the deletion guard does not catch.
- `tracker.dfy` (module `Tracker`): the registry as the program keeps it, a
  class `FileTracker` whose two map fields are updated in place. Each method
  is proved to make exactly the transition the functions above describe, and
  to keep `Valid`. `quit`'s loop over the entry snapshot is a `while` loop
  with its invariant.

Every call into the platform is a parameter: the stream `fopen`, `tmpfile` or
`freopen` returned, and the integer `fclose` or `remove` returned. So is the
snapshot order of the entry table the sweep walks. The `(__FILE__,
__LINE__)` pair is a `Site`. Strings are the characters before the
terminating NUL, and a Dafny `char` stands for one C byte: the bounds
(`filename_len_max`, 16 for the mode, 8 for "unknown") count bytes, so a
multi-byte filename is cut by bytes in C, possibly inside a character.

The code promises that, whatever those platform calls return:

- an open that succeeds is tracked as open. An `fopen` or `tmpfile` that
  fails leaves no trace; a failed `freopen` still closes the old entry;
- a second `fclose` of the same stream is refused with `EOF`, and the real
  `fclose` is not called twice;
- a `remove` of a filename whose indexed stream (the last one opened under
  that bounded name) is still open is refused with 1, and the real `remove`
  is not called;
- `fclose` refuses the standard streams, and a successful `freopen` of one
  is not tracked;
- the exit sweep reports each open entry exactly once and closes every one
  that is not a standard stream.

## Model

| member | source | states |
|---|---|---|
| Types.Bounded | filetrack.c:179-189 | The stored copy is a prefix of the input string. It is the whole input when the input fits within the limit, and exactly `limit` characters long otherwise. |
| Types.TmpfileModeExact | filetrack.c:220-222 | The 10-byte comparison with "(tmpfile)" matches the stored mode exactly when the caller passed "(tmpfile)". |
| Transitions.Init | filetrack.c:138-158 | After `init` the stores exist. Called while they are absent, it creates both empty. On stores that already exist it changes nothing. `Valid` is preserved. |
| Transitions.Add | filetrack.c:161-233 | Results by case: (1) a NULL stream gives EINVAL and no change; (2) `filename_len_max < 1` gives EINVAL, with the stores created. (3) Otherwise the stream maps to a fresh open entry: bounded name and mode, given open kind and site, no mode-change or close site. Every other entry is unchanged. The index maps the bounded name to the stream unless the mode is "(tmpfile)". `Valid` is preserved. |
| Transitions.Update | filetrack.c:237-284 | Results by case: (1) a non-NULL filename is fatal and changes nothing; (2) a NULL stream gives EINVAL. (3) An untracked stream gets an "unknown" entry of kind unknown, bounded to 8 characters, with EPERM if the stores did not exist. (4) A tracked stream gets only its mode and mode-change site replaced; its filename, open kind and site, and close status are kept. The index and all other entries are unchanged. `Valid` is preserved. |
| Transitions.Close | filetrack.c:287-320 | The index and the set of tracked streams are never changed. Results by case: (1) NULL gives EINVAL; (2) before `init`, EPERM with the stores created; (3) an untracked stream records the failure and changes nothing. (4) A tracked entry is marked closed with the given kind and site. A closed entry stays closed. `Valid` is preserved for every real close kind. |
| Transitions.Fopen | filetrack.c:323-394 | Results by case: (1) a NULL or empty filename or mode, or `filename_len_max < 1`, gives NULL and EINVAL with no change; (2) a failed `fopen` gives NULL and no change; (3) otherwise the returned stream is added as an open entry of kind fopen at the call site. `Valid` is preserved. |
| Transitions.Tmpfile | filetrack.c:405-425 | A failed `tmpfile` gives NULL, EINVAL and no change. Otherwise the stream is tracked as an open "unknown" entry with mode "(tmpfile)" and kind tmpfile, and the filename index is untouched. `Valid` is preserved. |
| Transitions.Freopen | filetrack.c:436-536 | Results by case: (1) bad arguments give NULL and EINVAL with no change; (2) a failed filename copy gives NULL with no change. (3) A failed `freopen` gives NULL and still closes the old entry with kind freopen. (4) A standard stream is returned untracked. (5) A NULL filename is a mode change (`Update`) on the returned stream, with the fault that change records. (6) A filename closes the old entry and adds the returned stream with kind freopen; the fault is the close's if it recorded one, else the add's. `Valid` is preserved. |
| Transitions.Fclose | filetrack.c:547-632 | Results by case: (1) NULL or a standard stream gives EOF and EINVAL, and the real `fclose` is not called; (2) a stream already closed gives EOF without the call. (3) An untracked stream, or a call before `init`, calls the real `fclose` and returns its result. (4) A tracked open stream calls it, returns its result and is marked closed by fclose at the site. Other entries, the index and every closed status are kept. `Valid` is preserved. |
| Transitions.CanBeRemoved | filetrack.c:644-675 | The query is denied exactly when the bounded name is non-empty and indexed to an open entry. An empty bounded name is allowed with a recorded failure. So is a dangling index row, which cannot occur in a `Valid` registry. |
| Transitions.Remove | filetrack.c:678-709 | A NULL or empty filename, or `filename_len_max < 1`, returns 1 with EINVAL. Otherwise the real `remove` is called exactly when the stores do not exist or the name is not held open, and its result is returned. A refusal returns 1 with EINVAL. On a `Valid` registry the recorded fault is clear exactly when `remove` returns 0. |
| Sweep.SweepOver | filetrack.c:769-801 | The walk over the snapshot keeps the index, the set of tracked streams, every entry not listed and every closed status. Every leak it reports was listed and open at the start. A leak's real `fclose` is called exactly when it is not a standard stream, and such a leak ends closed by fclose at the sweep's own call site (line 793). `Valid` is preserved. |
| Sweep.Quit | filetrack.c:757-837 | After `quit` both stores are gone (`Uninitialized`). The leaks are listed open entries, and the real `fclose` ran on exactly the leaks that are not standard streams. |
| Sweep.SweepClosesListed | filetrack.c:769-801 | Every listed, tracked, non-standard stream ends closed, and null elements do not stop the walk. |
| Sweep.SweepLeavesNothingOpen | filetrack.c:784-796 | When the snapshot lists every tracked stream, no entry is left open except one for a standard stream. |
| Sweep.LeaksAreListedOpenEntries | filetrack.c:769-801 | When each stream is listed once, the leaks are exactly the listed streams that were open at the start, each reported once. |
| Sweep.QuitReportsEachOpenEntryOnce | filetrack.c:757-837 | With every entry listed once, `quit` reports as many leaks as there are open entries, and the set of leaks is the set of open entries. It calls the real `fclose` on exactly the open non-standard ones and destroys both stores. |
| Properties.SecondCloseRefused | filetrack.c:605-624 | A first `fclose` of a tracked open stream calls the real `fclose` and marks the entry closed by fclose at its site. A second `fclose` returns EOF with EINVAL, changes nothing and does not call the real `fclose`. |
| Properties.OpenIsTracked | filetrack.c:372-393 | After a successful `fopen` the stream is tracked as open, of kind fopen. Its bounded name is indexed to it unless the mode is "(tmpfile)". A failed `fopen` returns NULL and leaves the registry as it was. |
| Properties.ModeChangeKeepsOrigin | filetrack.c:500-511 | A mode change (NULL filename) of a non-standard stream, where the stream the real `freopen` returns is already tracked, succeeds. It keeps the filename, open kind, open site and close status, records the new bounded mode and the change site, and leaves the index alone. |
| Properties.ReopenReplacesEntry | filetrack.c:512-534 | A successful reopen (the real `freopen` returns non-NULL) of a non-standard stream under a filename tracks the returned stream as a fresh open entry of kind freopen. The old stream, when tracked and different, ends closed with kind freopen at the call site. |
| Properties.FailedReopenClosesOld | filetrack.c:490-495 | A failed reopen returns NULL, reports the failure and still marks the old entry closed with kind freopen. |
| Properties.StandardStreamsUntracked | filetrack.c:497-498 | A successful reopen (the real `freopen` returns non-NULL) of a standard stream leaves the registry untouched; a failed one still closes a tracked entry for it. `fclose` of a standard stream is refused without calling the real `fclose`, whatever that call would have returned. |
| Properties.RemoveUntrackedAllowed | filetrack.c:657-658 | Removing a file whose bounded name was never indexed reaches the real `remove` and returns its result. |
| Properties.OpenRemoveCloseRemove | filetrack.c:678-709 | From any reachable registry, the following sequence holds: (1) `fopen("a.txt","w")` returns H1; (2) `remove("a.txt")` returns 1 without calling the real `remove`; (3) `fclose(H1)` calls the real `fclose`; (4) `remove("a.txt")` then calls the real `remove`. |
| GuardLimits.GuardChecksLastIndexedStream | filetrack.c:644-675 | Two `fopen("a.txt")` calls return H1 and then H2, and H2 is closed. `remove("a.txt")` then reaches the real `remove` while H1 is still open under that name, because the index names only the last stream. |
| GuardLimits.ReusedHandleBlocksRemove | filetrack.c:644-675 | `fopen("a.txt")` returns H1, H1 is closed, and `fopen("b.txt")` returns H1 again. `remove("a.txt")` is then refused with 1 and no open entry has that name. |
| GuardLimits.ReopenSameHandleBlocksRemove | filetrack.c:644-675 | `fopen("a.txt")` returns H1 and `freopen("b.txt","w",H1)` returns H1. `remove("a.txt")` is then refused with 1 and no open entry has that name. |
| Tracker.FileTracker.constructor | filetrack.c:121-125 | The stores start absent, which is a `Valid` state. |
| Tracker.FileTracker.Init | filetrack.c:138-158 | The fields become `Transitions.Init` of the old state. `Valid` is kept. |
| Tracker.FileTracker.EntryAdd | filetrack.c:161-233 | The fields and fault become those of `Transitions.Add` on the old state. `Valid` is kept. |
| Tracker.FileTracker.EntryUpdate | filetrack.c:237-284 | The fields and fault become those of `Transitions.Update` on the old state. `Valid` is kept. |
| Tracker.FileTracker.EntryClose | filetrack.c:287-320 | The fields and fault become those of `Transitions.Close` on the old state. `Valid` is kept for every real close kind. |
| Tracker.FileTracker.Fopen | filetrack.c:323-394 | The fields, returned stream and fault are those of `Transitions.Fopen`. `Valid` is kept. |
| Tracker.FileTracker.Tmpfile | filetrack.c:405-425 | The fields, returned stream and fault are those of `Transitions.Tmpfile`. `Valid` is kept. |
| Tracker.FileTracker.Freopen | filetrack.c:436-536 | The fields, returned stream and fault are those of `Transitions.Freopen`. `Valid` is kept. |
| Tracker.FileTracker.Fclose | filetrack.c:547-632 | The fields, return value, fault and whether the real `fclose` ran are those of `Transitions.Fclose`. `Valid` is kept. |
| Tracker.FileTracker.Remove | filetrack.c:678-709 | Reads the stores only. The return value, fault and whether the real `remove` ran are those of `Transitions.Remove`. |
| Tracker.FileTracker.Quit | filetrack.c:757-837 | The loop over the snapshot ends in the state, leaks and closes of `Sweep.SweepOver`. The stores are then destroyed, so the result is `Sweep.Quit` of the old state. |
| Tracker.RemoveWhileOpenScenario | filetrack.c:678-709 | On a fresh tracker, the deletion guard behaves as follows: (1) `fopen("a.txt","w")` returns H1; (2) `remove("a.txt")` returns 1 without calling the real `remove`; (3) `fclose(H1)` returns what the real `fclose` returned; (4) a second `remove("a.txt")` reaches the real `remove`. |

## Left out

- The global lock and the public wrappers that take it (`filetrack_fopen`, `filetrack_tmpfile`, `filetrack_freopen`, `filetrack_fclose`). Every call is modelled as atomic.
- `errno` and `filetrack_errfunc` are not modelled as values. Their save and restore is not modelled either. Each call reports a single `Fault`: the first failure met on its path. Which errno value a later step would overwrite it with is not modelled.
- The hash-table implementation (`mhashtable`) becomes Dafny maps. Three things are not modelled: store creation retries, failure of `mht_uint_set`, `mht_str_set` or `mht_all_get`, and `init` exiting when the entry table cannot be created. `init` is modelled as "the stores now exist" and creates both stores or neither.
- Allocation failure of `mutils_strndup` is not modelled, except for the bounded copy of a NULL filename in `freopen`. Its outcome is the `nameCopied` parameter, because the behaviour of `mutils_strndup` on NULL is not part of this model. `free` is not modelled either.
- `filetrack_all_check` and every printed message are left out, and so is the text of the leak report. The sweep returns the leaked streams in snapshot order instead.
- The non-diagnostic build (`#ifndef DEBUG`), in which a close deletes the entry and there is no filename index, is left out.
- The real `fopen` and `freopen` receive the bounded copies of the filename and mode (filetrack.c:372, 485), but the real `remove` receives the full filename (filetrack.c:705). Since the platform calls are parameters, the model does not record which name each one received.
- The macro layer in `filetrack.h` that substitutes the wrappers for the standard calls is not modelled.
- A direct call of `filetrack_entry_add` with a NULL filename or mode, or of `filetrack_entry_update` with a NULL mode, is not modelled. The model's filename and mode there are strings. The NULL filename `filetrack_entry_update` expects is modelled, as `None`.
- Strings containing NUL are not modelled, and neither are call sites that are only printed: `remove` takes no site in the model.
- Tracker.FileTracker.EntryClose: keeps `Valid` only for a real close kind. Passing `FILE_NOT_CLOSED` would mark an entry closed with a "not closed" kind, and no caller in `filetrack.c` does that.

## Notes on the code

Behaviour of the code worth knowing:

- `filetrack.c:356` and `filetrack.c:469` have a value-less `return;` in functions that return `FILE*`. They are modelled as returning NULL with EINVAL, like the neighbouring checks.
- A failed `tmpfile` records EINVAL (`filetrack.c:409`).
- A `close` or `fclose` of an untracked stream does not create an entry. Only a mode change of an untracked stream creates an "unknown" entry (`filetrack.c:258`, `filetrack.c:267`).
- A close never removes an index row. The index keeps one stream per bounded name, the last one added under it (`filetrack.c:229`), and the deletion guard consults only that stream (`filetrack.c:657-668`). So the guard can both miss an open file and refuse a file nobody has open:
  - two opens of the same name followed by a close of the second let `remove` through while the first is still open (`GuardLimits.GuardChecksLastIndexedStream`);
  - when a closed stream's handle is reused for another file, the stale row for the old name names that new open entry, and `remove` of the old name is refused (`GuardLimits.ReusedHandleBlocksRemove`). The common case is `freopen` under a new name returning the same handle (`GuardLimits.ReopenSameHandleBlocksRemove`).
- `fclose` refuses the standard streams (`filetrack.c:555-570`). So an entry for a standard stream is reported as a leak by the sweep but stays open.

=== FILE: properties.dfy ===
/** Properties that relate several calls of the registry. */
module Properties {
  import opened Types
  import opened Transitions

  /** A successful close marks the entry closed by fclose; a second close of
      the same stream is refused with EOF, changes nothing and does not call
      the real `fclose` again. */
  lemma SecondCloseRefused(r: Registry, s: Stream, first: Site, second: Site,
                           platform1: int, platform2: int)
    requires s != Null && !IsStandard(s) && Tracked(r, s) && !r.entries[s].isClosed
    ensures var c1 := Fclose(r, s, first, platform1);
      && c1.platformCalled && c1.code == platform1
      && c1.next.entries[s].isClosed
      && c1.next.entries[s].closedType == ClosedFclose
      && c1.next.entries[s].closeSite == Some(first)
      && Fclose(c1.next, s, second, platform2) == Closing(c1.next, EOF, InvalidArgument, false)
  {
  }

  /** A successful open is tracked as open with the kind of the path that
      opened it, and its filename is indexed to it; a failed open creates no
      entry. */
  lemma OpenIsTracked(r: Registry, filename: string, mode: string, limit: nat, site: Site,
                      returned: Stream)
    requires filename != "" && mode != "" && limit >= 1
    ensures var c := Fopen(r, Some(filename), Some(mode), limit, site, returned);
      && (returned == Null ==> c.stream == Null && c.next == r)
      && (returned != Null ==>
            && c.stream == returned
            && c.next.entries[returned].openType == OpenFopen
            && !c.next.entries[returned].isClosed
            && c.next.entries[returned].closedType == NotClosed
            && c.next.entries[returned].closeSite == None
            && (mode != TmpfileMode ==> c.next.index[Bounded(filename, limit)] == returned))
  {
  }

  /** A mode change (`freopen` with a NULL filename) of a non-standard stream,
      where the stream the real `freopen` returns is already tracked, keeps
      the entry's filename, open kind, open site and close status, and
      records the new mode and the call site of the change. */
  lemma ModeChangeKeepsOrigin(r: Registry, mode: string, stream: Stream, limit: nat,
                              site: Site, reopened: Stream)
    requires mode != "" && stream != Null && !IsStandard(stream) && limit >= 1
    requires reopened != Null && Tracked(r, reopened)
    ensures var c := Freopen(r, None, Some(mode), stream, limit, site, true, reopened);
      var was, e := r.entries[reopened], c.next.entries[reopened];
      && c.stream == reopened
      && c.fault == NoFault
      && c.next.index == r.index
      && e.filename == was.filename
      && e.openType == was.openType
      && e.openSite == was.openSite
      && e.isClosed == was.isClosed
      && e.mode == Bounded(mode, ModeLenMax)
      && e.modeChangeSite == Some(site)
  {
  }

  /** A successful reopen of a non-standard stream under a filename closes
      the old stream's entry with kind
      freopen and tracks the returned stream as a fresh open entry of kind
      freopen, even when the returned stream is the same as the old one (the
      fresh entry then overwrites the closed one). */
  lemma ReopenReplacesEntry(r: Registry, filename: string, mode: string, stream: Stream,
                            limit: nat, site: Site, nameCopied: bool, reopened: Stream)
    requires filename != "" && mode != "" && stream != Null && !IsStandard(stream) && limit >= 1
    requires reopened != Null
    ensures var c := Freopen(r, Some(filename), Some(mode), stream, limit, site, nameCopied, reopened);
      var e := c.next.entries[reopened];
      && c.stream == reopened
      && e == Entry(Bounded(filename, limit), Bounded(mode, ModeLenMax), OpenFreopen,
                    NotClosed, false, site, None, None)
      && (Tracked(r, stream) && reopened != stream ==>
            && c.next.entries[stream].isClosed
            && c.next.entries[stream].closedType == ClosedFreopen
            && c.next.entries[stream].closeSite == Some(site))
  {
  }

  /** A failed reopen returns null and closes the old stream's entry with kind
      freopen all the same. */
  lemma FailedReopenClosesOld(r: Registry, filename: Option<string>, mode: string, stream: Stream,
                              limit: nat, site: Site)
    requires filename.None? || filename.value != ""
    requires mode != "" && stream != Null && limit >= 1 && Tracked(r, stream)
    ensures var c := Freopen(r, filename, Some(mode), stream, limit, site, true, Null);
      && c.stream == Null
      && c.fault == PlatformFailure
      && c.next.entries[stream].isClosed
      && c.next.entries[stream].closedType == ClosedFreopen
      && c.next.entries[stream].closeSite == Some(site)
  {
  }

  /** Reopening a standard stream successfully leaves the registry untouched;
      a failed reopen still closes a tracked entry for it, because the close
      comes before the standard-stream check. */
  lemma StandardStreamsUntracked(r: Registry, filename: Option<string>, mode: string,
                                 stream: Stream, limit: nat, site: Site, reopened: Stream,
                                 platform: int)
    requires filename.None? || filename.value != ""
    requires mode != "" && IsStandard(stream) && limit >= 1 && reopened != Null
    ensures var c := Freopen(r, filename, Some(mode), stream, limit, site, true, reopened);
      c.next == r && c.stream == reopened
    ensures Tracked(r, stream) ==>
      var f := Freopen(r, filename, Some(mode), stream, limit, site, true, Null);
      f.stream == Null && f.next.entries[stream].isClosed
    ensures Fclose(r, stream, site, platform) == Closing(r, EOF, InvalidArgument, false)
  {
  }

  /** Deleting a file the registry never indexed is allowed. */
  lemma RemoveUntrackedAllowed(r: Registry, filename: string, limit: nat, platform: int)
    requires filename != "" && limit >= 1 && Bounded(filename, limit) !in r.index
    ensures var d := Remove(r, Some(filename), limit, platform);
      d.platformCalled && d.code == platform
  {
  }

  /** `fopen("a.txt", "w")` returns H1; `remove("a.txt")` is then denied and
      the real `remove` is not called; `fclose(H1)` closes it; after that
      `remove("a.txt")` reaches the real `remove`. This holds from any
      reachable registry. */
  lemma OpenRemoveCloseRemove(r: Registry, limit: nat, openSite: Site, closeSite: Site,
                              h1: Stream, removed1: int, closed: int, removed2: int)
    requires Valid(r) && limit >= 1 && h1.Handle?
    ensures var o := Fopen(r, Some("a.txt"), Some("w"), limit, openSite, h1);
      var d1 := Remove(o.next, Some("a.txt"), limit, removed1);
      var c := Fclose(o.next, h1, closeSite, closed);
      var d2 := Remove(c.next, Some("a.txt"), limit, removed2);
      && o.stream == h1
      && d1 == Removal(1, InvalidArgument, false)
      && c.platformCalled && c.code == closed
      && d2.platformCalled && d2.code == removed2
  {
    var o := Fopen(r, Some("a.txt"), Some("w"), limit, openSite, h1);
    assert "w" != TmpfileMode;
    assert HeldOpen(o.next, Bounded("a.txt", limit));
  }
}

/** What the deletion guard of `filetrack_remove` actually consults: the one
    stream the filename index holds for the bounded name, which is the stream
    last opened under it. */
module GuardLimits {
  import opened Types
  import opened Transitions

  /** Two opens of "a.txt" leave the index naming only the second stream.
      Once that one is closed, `remove("a.txt")` reaches the real `remove`
      although the first stream is still open under the same name. */
  lemma {:induction false} GuardChecksLastIndexedStream(
    r: Registry, limit: nat, s1: Site, s2: Site, s3: Site,
    h1: Stream, h2: Stream, closed: int, removed: int)
    requires Valid(r) && limit >= 1 && h1.Handle? && h2.Handle? && h1 != h2
    ensures var o1 := Fopen(r, Some("a.txt"), Some("w"), limit, s1, h1);
      var o2 := Fopen(o1.next, Some("a.txt"), Some("w"), limit, s2, h2);
      var c := Fclose(o2.next, h2, s3, closed);
      var d := Remove(c.next, Some("a.txt"), limit, removed);
      && Tracked(c.next, h1)
      && !c.next.entries[h1].isClosed
      && c.next.entries[h1].filename == Bounded("a.txt", limit)
      && d.platformCalled && d.code == removed
  {
    assert "w" != TmpfileMode;
    var o1 := Fopen(r, Some("a.txt"), Some("w"), limit, s1, h1);
    var o2 := Fopen(o1.next, Some("a.txt"), Some("w"), limit, s2, h2);
    var c := Fclose(o2.next, h2, s3, closed);
    assert o2.next.index[Bounded("a.txt", limit)] == h2;
    assert !HeldOpen(c.next, Bounded("a.txt", limit));
  }

  /** The bounded names of "a.txt" and "b.txt" differ under every limit. */
  lemma NamesDiffer(limit: nat)
    requires limit >= 1
    ensures Bounded("a.txt", limit) != Bounded("b.txt", limit)
  {
    assert Bounded("a.txt", limit)[0] == 'a';
    assert Bounded("b.txt", limit)[0] == 'b';
  }

  /** Handle reuse: `fopen("a.txt")` returns H1, `fclose(H1)`, then
      `fopen("b.txt")` returns H1 again. The stale row for "a.txt" now names
      the open entry of "b.txt", and `remove("a.txt")` is refused although no
      open entry has that name. */
  lemma {:induction false} ReusedHandleBlocksRemove(
    limit: nat, s1: Site, s2: Site, s3: Site, h1: Stream, closed: int, removed: int)
    requires limit >= 1 && h1.Handle?
    ensures var o1 := Fopen(Uninitialized, Some("a.txt"), Some("w"), limit, s1, h1);
      var c := Fclose(o1.next, h1, s2, closed);
      var o2 := Fopen(c.next, Some("b.txt"), Some("w"), limit, s3, h1);
      var d := Remove(o2.next, Some("a.txt"), limit, removed);
      && o2.stream == h1
      && (forall s :: s in o2.next.entries && !o2.next.entries[s].isClosed ==>
            o2.next.entries[s].filename != Bounded("a.txt", limit))
      && d == Removal(1, InvalidArgument, false)
  {
    assert "w" != TmpfileMode;
    NamesDiffer(limit);
    var o1 := Fopen(Uninitialized, Some("a.txt"), Some("w"), limit, s1, h1);
    var c := Fclose(o1.next, h1, s2, closed);
    var o2 := Fopen(c.next, Some("b.txt"), Some("w"), limit, s3, h1);
    assert o2.next.entries.Keys == {h1};
    assert o2.next.index[Bounded("a.txt", limit)] == h1;
    assert HeldOpen(o2.next, Bounded("a.txt", limit));
  }

  /** The common `freopen` case: `fopen("a.txt")` returns H1 and
      `freopen("b.txt", "w", H1)` returns H1 too. The row for "a.txt" still
      names H1, now open as "b.txt", so `remove("a.txt")` is refused although
      "a.txt" is no longer open. */
  lemma {:induction false} ReopenSameHandleBlocksRemove(
    limit: nat, s1: Site, s2: Site, h1: Stream, nameCopied: bool, removed: int)
    requires limit >= 1 && h1.Handle?
    ensures var o := Fopen(Uninitialized, Some("a.txt"), Some("w"), limit, s1, h1);
      var f := Freopen(o.next, Some("b.txt"), Some("w"), h1, limit, s2, nameCopied, h1);
      var d := Remove(f.next, Some("a.txt"), limit, removed);
      && f.stream == h1
      && (forall s :: s in f.next.entries && !f.next.entries[s].isClosed ==>
            f.next.entries[s].filename != Bounded("a.txt", limit))
      && d == Removal(1, InvalidArgument, false)
  {
    assert "w" != TmpfileMode;
    NamesDiffer(limit);
    var o := Fopen(Uninitialized, Some("a.txt"), Some("w"), limit, s1, h1);
    var f := Freopen(o.next, Some("b.txt"), Some("w"), h1, limit, s2, nameCopied, h1);
    assert f.next.entries.Keys == {h1};
    assert f.next.index[Bounded("a.txt", limit)] == h1;
    assert HeldOpen(f.next, Bounded("a.txt", limit));
  }
}

=== FILE: sweep.dfy ===
/** The exit sweep (`quit`): every entry still open is reported as a leak and
    force-closed through the fclose path; then both stores are destroyed. */
module Sweep {
  import opened Types
  import opened Transitions

  /** An element of the snapshot the sweep reports and force-closes: a
      tracked stream whose entry is not yet closed. */
  predicate IsLeak(r: Registry, s: Stream) {
    s != Null && Tracked(r, s) && !r.entries[s].isClosed
  }

  /** The streams whose entries are open. */
  ghost function OpenStreams(r: Registry): set<Stream> {
    set s | s in r.entries && !r.entries[s].isClosed
  }

  /** The registry just before the stores are destroyed, the leaks reported in
      snapshot order, and the streams whose real `fclose` was called. */
  datatype Swept = Swept(tables: Registry, leaks: seq<Stream>, released: seq<Stream>)

  /** The loop of `quit` over the snapshot that `mht_all_get` returned. A
      `Null` element stands for a null entry pointer or an entry whose stream
      is null; it is skipped and the loop goes on. `platformClose` gives what
      the real `fclose` returns; the sweep ignores it. Defined from the end so
      that it follows the loop one element at a time. */
  function SweepOver(r: Registry, snapshot: seq<Stream>, platformClose: Stream -> int): (w: Swept)
    decreases |snapshot|
    ensures w.tables.index == r.index
    ensures w.tables.initialized == r.initialized
    ensures w.tables.entries.Keys == r.entries.Keys
    ensures forall s :: s in r.entries && s !in snapshot ==> w.tables.entries[s] == r.entries[s]
    ensures forall s :: s in r.entries && r.entries[s].isClosed ==> w.tables.entries[s].isClosed
    ensures forall s :: s in w.leaks ==> s in snapshot && IsLeak(r, s)
    ensures forall s :: s in w.released <==> s in w.leaks && !IsStandard(s)
    ensures forall s :: s in w.released ==>
      && s in w.tables.entries
      && w.tables.entries[s].isClosed
      && w.tables.entries[s].closedType == ClosedFclose
      && w.tables.entries[s].closeSite == Some(QuitSite)
    ensures Valid(r) ==> Valid(w.tables)
  {
    if snapshot == [] then Swept(r, [], [])
    else
      var prev := SweepOver(r, snapshot[..|snapshot| - 1], platformClose);
      var s := snapshot[|snapshot| - 1];
      if IsLeak(prev.tables, s) then
        var c := Fclose(prev.tables, s, QuitSite, platformClose(s));
        Swept(c.next, prev.leaks + [s], if c.platformCalled then prev.released + [s] else prev.released)
      else
        prev
  }

  /** `quit`: only registered once the stores exist; afterwards neither does. */
  datatype Shutdown = Shutdown(next: Registry, leaks: seq<Stream>, released: seq<Stream>)

  function Quit(r: Registry, snapshot: seq<Stream>, platformClose: Stream -> int): (q: Shutdown)
    ensures q.next == Uninitialized && Valid(q.next)
    ensures forall s :: s in q.released <==> s in q.leaks && !IsStandard(s)
    ensures forall s :: s in q.leaks ==> s in snapshot && IsLeak(r, s)
  {
    if r.initialized then
      var w := SweepOver(r, snapshot, platformClose);
      Shutdown(Uninitialized, w.leaks, w.released)
    else
      Shutdown(Uninitialized, [], [])
  }

  /** Every tracked stream the snapshot lists, other than a standard stream,
      ends closed; null elements do not stop the sweep. A standard stream
      stays open because the fclose path refuses to close it. */
  lemma {:induction false} SweepClosesListed(r: Registry, snapshot: seq<Stream>,
                                             platformClose: Stream -> int)
    ensures var w := SweepOver(r, snapshot, platformClose);
      forall s :: s in snapshot && s != Null && !IsStandard(s) && Tracked(r, s) ==>
        w.tables.entries[s].isClosed
  {
    if snapshot != [] {
      var init, s := snapshot[..|snapshot| - 1], snapshot[|snapshot| - 1];
      SweepClosesListed(r, init, platformClose);
      var prev := SweepOver(r, init, platformClose);
      var w := SweepOver(r, snapshot, platformClose);
      forall t | t in snapshot && t != Null && !IsStandard(t) && Tracked(r, t)
        ensures w.tables.entries[t].isClosed
      {
        if t != s {
          assert t in init by {
            var i :| 0 <= i < |snapshot| && snapshot[i] == t;
            assert i < |snapshot| - 1 && init[i] == t;
          }
        }
      }
    }
  }

  /** When the snapshot lists every tracked stream, the sweep leaves no entry
      open except one for a standard stream. */
  lemma SweepLeavesNothingOpen(r: Registry, snapshot: seq<Stream>, platformClose: Stream -> int)
    requires Valid(r) && r.initialized
    requires forall s :: s in r.entries ==> s in snapshot
    ensures var w := SweepOver(r, snapshot, platformClose);
      forall s :: s in w.tables.entries ==> w.tables.entries[s].isClosed || IsStandard(s)
  {
    SweepClosesListed(r, snapshot, platformClose);
  }

  /** The snapshot lists each stream at most once; null elements may repeat. */
  predicate ListsOnce(snapshot: seq<Stream>) {
    forall i, j :: 0 <= i < j < |snapshot| && snapshot[i] != Null ==> snapshot[i] != snapshot[j]
  }

  predicate Distinct<T(==)>(xs: seq<T>) {
    forall i, j :: 0 <= i < j < |xs| ==> xs[i] != xs[j]
  }

  /** With each stream listed once, the leaks reported are exactly the listed
      streams that were open when the sweep began, each reported once. */
  lemma {:induction false} LeaksAreListedOpenEntries(r: Registry, snapshot: seq<Stream>,
                                                     platformClose: Stream -> int)
    requires ListsOnce(snapshot)
    ensures var w := SweepOver(r, snapshot, platformClose);
      && (forall s :: s in w.leaks <==> s in snapshot && IsLeak(r, s))
      && Distinct(w.leaks)
  {
    if snapshot != [] {
      var init, s := snapshot[..|snapshot| - 1], snapshot[|snapshot| - 1];
      assert ListsOnce(init) by {
        forall i, j | 0 <= i < j < |init| && init[i] != Null ensures init[i] != init[j] {
          assert snapshot[i] == init[i] && snapshot[j] == init[j];
        }
      }
      LeaksAreListedOpenEntries(r, init, platformClose);
      var prev := SweepOver(r, init, platformClose);
      if s != Null {
        forall i | 0 <= i < |init| ensures init[i] != s {
          assert init[i] == snapshot[i];
        }
        assert s !in init;
        assert s in r.entries ==> prev.tables.entries[s] == r.entries[s];
        assert IsLeak(prev.tables, s) <==> IsLeak(r, s);
      }
      assert snapshot == init + [s];
    }
  }

  lemma {:induction false} DistinctCardinality<T>(xs: seq<T>)
    requires Distinct(xs)
    ensures |set x | x in xs| == |xs|
  {
    if xs != [] {
      var init, last := xs[..|xs| - 1], xs[|xs| - 1];
      assert Distinct(init) by {
        forall i, j | 0 <= i < j < |init| ensures init[i] != init[j] {
          assert xs[i] == init[i] && xs[j] == init[j];
        }
      }
      DistinctCardinality(init);
      forall i | 0 <= i < |init| ensures init[i] != last {
        assert init[i] == xs[i];
      }
      assert last !in init;
      assert xs == init + [last];
      assert (set x | x in xs) == (set x | x in init) + {last};
    }
  }

  /** The exit sweep over a registry with N open entries, all listed once,
      reports exactly N leaks, calls the real `fclose` on each of them that is
      not a standard stream, and leaves both stores destroyed. */
  lemma QuitReportsEachOpenEntryOnce(r: Registry, snapshot: seq<Stream>,
                                     platformClose: Stream -> int)
    requires Valid(r) && r.initialized
    requires ListsOnce(snapshot)
    requires forall s :: s in r.entries ==> s in snapshot
    ensures var q := Quit(r, snapshot, platformClose);
      && (set s | s in q.leaks) == OpenStreams(r)
      && |q.leaks| == |OpenStreams(r)|
      && (forall s :: s in q.released <==> s in OpenStreams(r) && !IsStandard(s))
      && q.next == Uninitialized
  {
    var w := SweepOver(r, snapshot, platformClose);
    LeaksAreListedOpenEntries(r, snapshot, platformClose);
    DistinctCardinality(w.leaks);
    assert (set s | s in w.leaks) == OpenStreams(r);
  }
}

=== FILE: tracker.dfy ===
/** The registry as the program keeps it: two stores updated in place by
    each public operation, each method proved to make the transition the
    functions of `Transitions` and `Sweep` describe. Each call is atomic
    (the global lock is not modelled). */
module Tracker {
  import opened Types
  import opened Transitions
  import opened Sweep

  class FileTracker {
    /** `filetrack_entries`: stream -> entry. */
    var entries: map<Stream, Entry>
    /** `filename_stream_entries`: bounded filename -> stream. */
    var index: map<string, Stream>
    /** Whether the stores exist (they are NULL before `init` and after `quit`). */
    var initialized: bool

    function State(): Registry
      reads this
    {
      Registry(entries, index, initialized)
    }

    ghost predicate Valid()
      reads this
    {
      Transitions.Valid(State())
    }

    constructor ()
      ensures State() == Uninitialized && Valid()
    {
      entries, index, initialized := map[], map[], false;
    }

    /** `init`, called only while the stores do not exist. */
    method Init()
      requires Valid()
      modifies this
      ensures Valid()
      ensures State() == Transitions.Init(old(State()))
    {
      initialized := true;
    }

    /** `filetrack_entry_add`. */
    method EntryAdd(stream: Stream, openType: OpenType, filename: string, mode: string,
                    limit: nat, site: Site) returns (fault: Fault)
      requires Valid()
      modifies this
      ensures Valid()
      ensures var c := Add(old(State()), stream, openType, filename, mode, limit, site);
        State() == c.next && fault == c.fault
    {
      if stream == Null {
        return InvalidArgument;
      }
      if !initialized {
        Init();
      }
      if limit < 1 {
        return InvalidArgument;
      }
      var name := Bounded(filename, limit);
      var stored := Bounded(mode, ModeLenMax);
      entries := entries[stream := Entry(name, stored, openType, NotClosed, false, site, None, None)];
      if stored != TmpfileMode {
        index := index[name := stream];
      }
      fault := NoFault;
    }

    /** `filetrack_entry_update`. */
    method EntryUpdate(stream: Stream, filename: Option<string>, mode: string, site: Site)
      returns (fault: Fault)
      requires Valid()
      modifies this
      ensures Valid()
      ensures var c := Update(old(State()), stream, filename, mode, site);
        State() == c.next && fault == c.fault
    {
      if filename.Some? {
        return Fatal;
      }
      if stream == Null {
        return InvalidArgument;
      }
      if !initialized {
        Init();
        var added := EntryAdd(stream, OpenUnknown, UnknownName, mode, UnknownNameLimit, site);
        return NotPermitted;
      }
      if stream !in entries {
        var added := EntryAdd(stream, OpenUnknown, UnknownName, mode, UnknownNameLimit, site);
        return Untracked;
      }
      var e := entries[stream];
      entries := entries[stream := e.(mode := Bounded(mode, ModeLenMax), modeChangeSite := Some(site))];
      fault := NoFault;
    }

    /** `filetrack_entry_close`, diagnostic build. */
    method EntryClose(stream: Stream, kind: ClosedType, site: Site) returns (fault: Fault)
      requires Valid()
      modifies this
      ensures kind != NotClosed ==> Valid()
      ensures var c := Close(old(State()), stream, kind, site);
        State() == c.next && fault == c.fault
    {
      if stream == Null {
        return InvalidArgument;
      }
      if !initialized {
        Init();
        return NotPermitted;
      }
      if stream !in entries {
        return Untracked;
      }
      var e := entries[stream];
      entries := entries[stream := e.(isClosed := true, closedType := kind, closeSite := Some(site))];
      fault := NoFault;
    }

    /** `filetrack_fopen_without_lock`; `returned` is what the real `fopen` returns. */
    method Fopen(filename: Option<string>, mode: Option<string>, limit: nat, site: Site,
                 returned: Stream) returns (stream: Stream, fault: Fault)
      requires Valid()
      modifies this
      ensures Valid()
      ensures var c := Transitions.Fopen(old(State()), filename, mode, limit, site, returned);
        State() == c.next && stream == c.stream && fault == c.fault
    {
      if filename.None? || filename.value == "" || mode.None? || mode.value == "" {
        return Null, InvalidArgument;
      }
      if limit < 1 {
        return Null, InvalidArgument;
      }
      stream := returned;
      if stream == Null {
        return Null, PlatformFailure;
      }
      fault := EntryAdd(stream, OpenFopen, filename.value, mode.value, limit, site);
    }

    /** `filetrack_tmpfile_without_lock`; `created` is what the real `tmpfile` returns. */
    method Tmpfile(site: Site, created: Stream) returns (stream: Stream, fault: Fault)
      requires Valid()
      modifies this
      ensures Valid()
      ensures var c := Transitions.Tmpfile(old(State()), site, created);
        State() == c.next && stream == c.stream && fault == c.fault
    {
      stream := created;
      if stream == Null {
        return Null, InvalidArgument;
      }
      fault := EntryAdd(stream, OpenTmpfile, UnknownName, TmpfileMode, UnknownNameLimit, site);
    }

    /** `filetrack_freopen_without_lock`; `nameCopied` is whether the bounded
        copy of a NULL filename succeeds, `reopened` what the real `freopen`
        returns. */
    method Freopen(filename: Option<string>, mode: Option<string>, stream: Stream, limit: nat,
                   site: Site, nameCopied: bool, reopened: Stream) returns (result: Stream, fault: Fault)
      requires Valid()
      modifies this
      ensures Valid()
      ensures var c := Transitions.Freopen(old(State()), filename, mode, stream, limit, site,
                                           nameCopied, reopened);
        State() == c.next && result == c.stream && fault == c.fault
    {
      if (filename.Some? && filename.value == "") || mode.None? || mode.value == ""
         || stream == Null || limit < 1 {
        return Null, InvalidArgument;
      }
      if filename.None? && !nameCopied {
        return Null, CopyFailed;
      }
      result := reopened;
      if result == Null {
        var closed := EntryClose(stream, ClosedFreopen, site);
        return Null, PlatformFailure;
      }
      if IsStandard(stream) {
        return result, NoFault;
      }
      if filename.None? {
        fault := EntryUpdate(result, filename, mode.value, site);
      } else {
        var closed := EntryClose(stream, ClosedFreopen, site);
        var added := EntryAdd(result, OpenFreopen, filename.value, mode.value, limit, site);
        fault := if closed != NoFault then closed else added;
      }
    }

    /** `filetrack_fclose_without_lock`; `platform` is what the real `fclose`
        returns if it is called. */
    method Fclose(stream: Stream, site: Site, platform: int)
      returns (code: int, fault: Fault, platformCalled: bool)
      requires Valid()
      modifies this
      ensures Valid()
      ensures var c := Transitions.Fclose(old(State()), stream, site, platform);
        State() == c.next && code == c.code && fault == c.fault && platformCalled == c.platformCalled
    {
      if stream == Null || IsStandard(stream) {
        return EOF, InvalidArgument, false;
      }
      if !initialized {
        Init();
        return platform, NotPermitted, true;
      }
      if stream !in entries {
        return platform, Untracked, true;
      }
      if entries[stream].isClosed {
        return EOF, InvalidArgument, false;
      }
      code, platformCalled := platform, true;
      var closed := EntryClose(stream, ClosedFclose, site);
      fault := if code != 0 then PlatformFailure else closed;
    }

    /** `filetrack_remove`; `platform` is what the real `remove` returns if it
        is called. Only reads the stores. */
    method Remove(filename: Option<string>, limit: nat, platform: int)
      returns (code: int, fault: Fault, platformCalled: bool)
      ensures var d := Transitions.Remove(State(), filename, limit, platform);
        code == d.code && fault == d.fault && platformCalled == d.platformCalled
    {
      if filename.None? || filename.value == "" || limit < 1 {
        return 1, InvalidArgument, false;
      }
      fault := NoFault;
      if initialized {
        var verdict := CanBeRemoved(State(), filename.value, limit);
        if verdict.Denied? {
          return 1, InvalidArgument, false;
        }
        fault := verdict.fault;
      }
      code, platformCalled := platform, true;
      if fault == NoFault && code != 0 {
        fault := PlatformFailure;
      }
    }

    /** `quit`: walks the snapshot, force-closes every entry still open through
        the fclose path, then destroys both stores. `platformClose` gives what
        the real `fclose` returns. */
    method Quit(snapshot: seq<Stream>, platformClose: Stream -> int)
      returns (leaks: seq<Stream>, released: seq<Stream>)
      requires Valid()
      modifies this
      ensures Valid()
      ensures var q := Sweep.Quit(old(State()), snapshot, platformClose);
        State() == q.next && leaks == q.leaks && released == q.released
    {
      leaks, released := [], [];
      if initialized {
        var i := 0;
        while i < |snapshot|
          invariant 0 <= i <= |snapshot|
          invariant Valid()
          invariant var w := SweepOver(old(State()), snapshot[..i], platformClose);
            State() == w.tables && leaks == w.leaks && released == w.released
        {
          var s := snapshot[i];
          if s != Null && s in entries && !entries[s].isClosed {
            var code, fault, called := Fclose(s, QuitSite, platformClose(s));
            leaks := leaks + [s];
            if called {
              released := released + [s];
            }
          }
          assert snapshot[..i + 1][..i] == snapshot[..i];
          i := i + 1;
        }
        assert snapshot[..i] == snapshot;
      }
      entries, index, initialized := map[], map[], false;
    }
  }

  /** `fopen("a.txt", "w")` returns H1, `remove("a.txt")` is denied without
      calling the real `remove`, `fclose(H1)` closes it, and `remove("a.txt")`
      then reaches the real `remove`. */
  method RemoveWhileOpenScenario(h1: Stream, limit: nat, site: Site, closed: int,
                               removed1: int, removed2: int)
    returns (stream: Stream, deniedCode: int, deniedCalled: bool, closeCode: int, allowedCalled: bool)
    requires h1.Handle? && limit >= 1
    ensures stream == h1
    ensures deniedCode == 1 && !deniedCalled
    ensures closeCode == closed
    ensures allowedCalled
  {
    var t := new FileTracker();
    var fault, called;
    stream, fault := t.Fopen(Some("a.txt"), Some("w"), limit, site, h1);
    assert "w" != TmpfileMode;
    deniedCode, fault, deniedCalled := t.Remove(Some("a.txt"), limit, removed1);
    closeCode, fault, called := t.Fclose(stream, site, closed);
    var code;
    code, fault, allowedCalled := t.Remove(Some("a.txt"), limit, removed2);
  }
}

=== FILE: transitions.dfy ===
/** The registry's state and its transitions, as functions of the state
    before the call. Each platform call (fopen, tmpfile, freopen, fclose,
    remove) is an oracle: the caller passes in what it returned. */
module Transitions {
  import opened Types

  /** The two stores: the entry table (keyed by stream) and the filename
      index (keyed by the bounded filename). `initialized` says whether the
      stores exist yet; they are created lazily and destroyed at exit. */
  datatype Registry = Registry(
    entries: map<Stream, Entry>,
    index: map<string, Stream>,
    initialized: bool)

  /** Before the first tracked call and after the exit sweep. */
  const Uninitialized: Registry := Registry(map[], map[], false)

  /** What every reachable registry satisfies: no stores before
      initialisation, no entry for the null stream, every index row names a
      tracked stream, and every entry's close status is consistent. */
  ghost predicate Valid(r: Registry) {
    && (!r.initialized ==> r.entries == map[] && r.index == map[])
    && Null !in r.entries
    && (forall name :: name in r.index ==> r.index[name] in r.entries)
    && (forall s :: s in r.entries ==> Consistent(r.entries[s]))
  }

  predicate Tracked(r: Registry, s: Stream) {
    r.initialized && s in r.entries
  }

  /** `init`: the stores exist from now on. Every caller reaches it only while
      the stores are absent, and it creates both of them empty. */
  function Init(r: Registry): (r': Registry)
    ensures r'.initialized
    ensures r.initialized ==> r' == r
    ensures Valid(r) && !r.initialized ==> r'.entries == map[] && r'.index == map[]
    ensures Valid(r) ==> Valid(r')
  {
    r.(initialized := true)
  }

  /** The new state after a call that returns nothing, and what it recorded. */
  datatype Change = Change(next: Registry, fault: Fault)

  /** `filetrack_entry_add`. */
  function Add(r: Registry, stream: Stream, openType: OpenType, filename: string,
               mode: string, limit: nat, site: Site): (c: Change)
    ensures stream == Null ==> c == Change(r, InvalidArgument)
    ensures stream != Null && limit < 1 ==> c == Change(Init(r), InvalidArgument)
    ensures stream != Null && limit >= 1 ==>
      && c.fault == NoFault
      && Tracked(c.next, stream)
      && c.next.entries.Keys == r.entries.Keys + {stream}
      && c.next.entries[stream] ==
           Entry(Bounded(filename, limit), Bounded(mode, ModeLenMax), openType,
                 NotClosed, false, site, None, None)
      && (forall s :: s in r.entries && s != stream ==> c.next.entries[s] == r.entries[s])
      && c.next.index == if mode == TmpfileMode then r.index
                         else r.index[Bounded(filename, limit) := stream]
    ensures Valid(r) ==> Valid(c.next)
  {
    if stream == Null then Change(r, InvalidArgument)
    else if limit < 1 then Change(Init(r), InvalidArgument)
    else
      var name := Bounded(filename, limit);
      var stored := Bounded(mode, ModeLenMax);
      var e := Entry(name, stored, openType, NotClosed, false, site, None, None);
      TmpfileModeExact(mode);
      Change(Registry(r.entries[stream := e],
                      if stored == TmpfileMode then r.index else r.index[name := stream],
                      true),
             NoFault)
  }

  /** `filetrack_entry_update`: a mode change on an already open stream. */
  function Update(r: Registry, stream: Stream, filename: Option<string>, mode: string,
                  site: Site): (c: Change)
    ensures filename.Some? ==> c == Change(r, Fatal)
    ensures filename.None? && stream == Null ==> c == Change(r, InvalidArgument)
    ensures filename.None? && stream != Null && !Tracked(r, stream) ==>
      && c.next == Add(r, stream, OpenUnknown, UnknownName, mode, UnknownNameLimit, site).next
      && c.fault == (if r.initialized then Untracked else NotPermitted)
    ensures filename.None? && stream != Null && Tracked(r, stream) ==>
      && c.fault == NoFault
      && c.next.index == r.index
      && c.next.initialized
      && c.next.entries.Keys == r.entries.Keys
      && (forall s :: s in r.entries && s != stream ==> c.next.entries[s] == r.entries[s])
      && var was, e := r.entries[stream], c.next.entries[stream];
      && e.mode == Bounded(mode, ModeLenMax)
      && e.modeChangeSite == Some(site)
      && e.filename == was.filename
      && e.openType == was.openType
      && e.openSite == was.openSite
      && e.isClosed == was.isClosed
      && e.closedType == was.closedType
      && e.closeSite == was.closeSite
    ensures Valid(r) ==> Valid(c.next)
  {
    if filename.Some? then Change(r, Fatal)
    else if stream == Null then Change(r, InvalidArgument)
    else if !r.initialized then
      Change(Add(Init(r), stream, OpenUnknown, UnknownName, mode, UnknownNameLimit, site).next,
             NotPermitted)
    else if stream !in r.entries then
      Change(Add(r, stream, OpenUnknown, UnknownName, mode, UnknownNameLimit, site).next,
             Untracked)
    else
      var e := r.entries[stream].(mode := Bounded(mode, ModeLenMax), modeChangeSite := Some(site));
      Change(r.(entries := r.entries[stream := e]), NoFault)
  }

  /** `filetrack_entry_close`, diagnostic build: the entry is marked, never removed. */
  function Close(r: Registry, stream: Stream, kind: ClosedType, site: Site): (c: Change)
    ensures c.next.index == r.index && c.next.entries.Keys == r.entries.Keys
    ensures stream == Null ==> c == Change(r, InvalidArgument)
    ensures stream != Null && !Tracked(r, stream) ==>
      && c.next.entries == r.entries
      && c.next.initialized
      && c.fault == (if r.initialized then Untracked else NotPermitted)
    ensures stream != Null && Tracked(r, stream) ==>
      && c.fault == NoFault
      && c.next.initialized
      && c.next.entries ==
           r.entries[stream := r.entries[stream].(isClosed := true, closedType := kind,
                                                  closeSite := Some(site))]
    ensures forall s :: s in r.entries && r.entries[s].isClosed ==> c.next.entries[s].isClosed
    ensures Valid(r) && kind != NotClosed ==> Valid(c.next)
  {
    if stream == Null then Change(r, InvalidArgument)
    else if !r.initialized then Change(Init(r), NotPermitted)
    else if stream !in r.entries then Change(r, Untracked)
    else
      var e := r.entries[stream].(isClosed := true, closedType := kind, closeSite := Some(site));
      Change(r.(entries := r.entries[stream := e]), NoFault)
  }

  /** The new state after an open-like wrapper, and the stream it returns. */
  datatype Opening = Opening(next: Registry, stream: Stream, fault: Fault)

  /** The argument checks of `filetrack_fopen` all pass. */
  predicate FopenArgsOk(filename: Option<string>, mode: Option<string>, limit: nat) {
    filename.Some? && filename.value != "" && mode.Some? && mode.value != "" && limit >= 1
  }

  /** `filetrack_fopen_without_lock`; `returned` is what the real `fopen` returned. */
  function Fopen(r: Registry, filename: Option<string>, mode: Option<string>, limit: nat,
                 site: Site, returned: Stream): (c: Opening)
    ensures !FopenArgsOk(filename, mode, limit) ==> c == Opening(r, Null, InvalidArgument)
    ensures FopenArgsOk(filename, mode, limit) && returned == Null ==>
      c == Opening(r, Null, PlatformFailure)
    ensures FopenArgsOk(filename, mode, limit) && returned != Null ==>
      && c.stream == returned
      && c.fault == NoFault
      && c.next == Add(r, returned, OpenFopen, filename.value, mode.value, limit, site).next
    ensures c.stream != Null ==>
      && Tracked(c.next, c.stream)
      && !c.next.entries[c.stream].isClosed
      && c.next.entries[c.stream].openType == OpenFopen
      && c.next.entries[c.stream].openSite == site
    ensures Valid(r) ==> Valid(c.next)
  {
    if !FopenArgsOk(filename, mode, limit) then Opening(r, Null, InvalidArgument)
    else if returned == Null then Opening(r, Null, PlatformFailure)
    else
      var added := Add(r, returned, OpenFopen, filename.value, mode.value, limit, site);
      Opening(added.next, returned, added.fault)
  }

  /** `filetrack_tmpfile_without_lock`; `created` is what the real `tmpfile`
      returned. A failure records EINVAL. */
  function Tmpfile(r: Registry, site: Site, created: Stream): (c: Opening)
    ensures created == Null ==> c == Opening(r, Null, InvalidArgument)
    ensures created != Null ==>
      && c.stream == created
      && c.fault == NoFault
      && c.next == Add(r, created, OpenTmpfile, UnknownName, TmpfileMode, UnknownNameLimit, site).next
      && c.next.index == r.index
      && c.next.entries[created].filename == UnknownName
      && c.next.entries[created].mode == TmpfileMode
      && c.next.entries[created].openType == OpenTmpfile
      && !c.next.entries[created].isClosed
    ensures Valid(r) ==> Valid(c.next)
  {
    if created == Null then Opening(r, Null, InvalidArgument)
    else
      var added := Add(r, created, OpenTmpfile, UnknownName, TmpfileMode, UnknownNameLimit, site);
      Opening(added.next, created, added.fault)
  }

  /** The argument checks of `filetrack_freopen` all pass. */
  predicate FreopenArgsOk(filename: Option<string>, mode: Option<string>, stream: Stream,
                          limit: nat) {
    (filename.None? || filename.value != "") && mode.Some? && mode.value != ""
    && stream != Null && limit >= 1
  }

  /** The real `freopen` is reached: the arguments pass and the bounded copy
      of the filename succeeds. For a NULL filename that copy is
      `mutils_strndup(NULL, ...)`, whose outcome `nameCopied` is an oracle. */
  predicate FreopenReached(filename: Option<string>, mode: Option<string>, stream: Stream,
                           limit: nat, nameCopied: bool) {
    FreopenArgsOk(filename, mode, stream, limit) && (filename.Some? || nameCopied)
  }

  /** `filetrack_freopen_without_lock`; `reopened` is what the real `freopen` returned. */
  function Freopen(r: Registry, filename: Option<string>, mode: Option<string>, stream: Stream,
                   limit: nat, site: Site, nameCopied: bool, reopened: Stream): (c: Opening)
    ensures !FreopenArgsOk(filename, mode, stream, limit) ==> c == Opening(r, Null, InvalidArgument)
    ensures FreopenArgsOk(filename, mode, stream, limit) && filename.None? && !nameCopied ==>
      c == Opening(r, Null, CopyFailed)
    ensures FreopenReached(filename, mode, stream, limit, nameCopied) && reopened == Null ==>
      c == Opening(Close(r, stream, ClosedFreopen, site).next, Null, PlatformFailure)
    ensures FreopenReached(filename, mode, stream, limit, nameCopied) && reopened != Null ==>
      c.stream == reopened
    ensures FreopenReached(filename, mode, stream, limit, nameCopied) && reopened != Null
            && IsStandard(stream) ==>
      c == Opening(r, reopened, NoFault)
    ensures FreopenReached(filename, mode, stream, limit, nameCopied) && reopened != Null
            && !IsStandard(stream) && filename.None? ==>
      && c.next == Update(r, reopened, None, mode.value, site).next
      && c.fault == Update(r, reopened, None, mode.value, site).fault
    ensures FreopenReached(filename, mode, stream, limit, nameCopied) && reopened != Null
            && !IsStandard(stream) && filename.Some? ==>
      var closed := Close(r, stream, ClosedFreopen, site);
      var added := Add(closed.next, reopened, OpenFreopen, filename.value, mode.value, limit, site);
      && c.next == added.next
      && c.fault == (if closed.fault != NoFault then closed.fault else added.fault)
    ensures Valid(r) ==> Valid(c.next)
  {
    if !FreopenArgsOk(filename, mode, stream, limit) then Opening(r, Null, InvalidArgument)
    else if filename.None? && !nameCopied then Opening(r, Null, CopyFailed)
    else if reopened == Null then
      Opening(Close(r, stream, ClosedFreopen, site).next, Null, PlatformFailure)
    else if IsStandard(stream) then Opening(r, reopened, NoFault)
    else if filename.None? then
      var updated := Update(r, reopened, filename, mode.value, site);
      Opening(updated.next, reopened, updated.fault)
    else
      var closed := Close(r, stream, ClosedFreopen, site);
      var added := Add(closed.next, reopened, OpenFreopen, filename.value, mode.value, limit, site);
      Opening(added.next, reopened, if closed.fault != NoFault then closed.fault else added.fault)
  }

  /** The new state after `fclose`, its return value, and whether the real
      `fclose` ran. */
  datatype Closing = Closing(next: Registry, code: int, fault: Fault, platformCalled: bool)

  /** `filetrack_fclose_without_lock`; `platform` is what the real `fclose`
      returns if it is called. */
  function Fclose(r: Registry, stream: Stream, site: Site, platform: int): (c: Closing)
    ensures c.next.index == r.index && c.next.entries.Keys == r.entries.Keys
    ensures stream == Null || IsStandard(stream) ==> c == Closing(r, EOF, InvalidArgument, false)
    ensures stream != Null && !IsStandard(stream) && Tracked(r, stream)
            && r.entries[stream].isClosed ==>
      c == Closing(r, EOF, InvalidArgument, false)
    ensures stream != Null && !IsStandard(stream) && !Tracked(r, stream) ==>
      && c == Closing(Init(r), platform, if r.initialized then Untracked else NotPermitted, true)
    ensures stream != Null && !IsStandard(stream) && Tracked(r, stream)
            && !r.entries[stream].isClosed ==>
      && c.platformCalled
      && c.code == platform
      && c.fault == (if platform != 0 then PlatformFailure else NoFault)
      && c.next.entries[stream].isClosed
      && c.next.entries[stream].closedType == ClosedFclose
      && c.next.entries[stream].closeSite == Some(site)
      && c.next == Close(r, stream, ClosedFclose, site).next
    ensures forall s :: s in r.entries && s != stream ==> c.next.entries[s] == r.entries[s]
    ensures forall s :: s in r.entries && r.entries[s].isClosed ==> c.next.entries[s].isClosed
    ensures Valid(r) ==> Valid(c.next)
  {
    if stream == Null || IsStandard(stream) then Closing(r, EOF, InvalidArgument, false)
    else if !r.initialized then Closing(Init(r), platform, NotPermitted, true)
    else if stream !in r.entries then Closing(r, platform, Untracked, true)
    else if r.entries[stream].isClosed then Closing(r, EOF, InvalidArgument, false)
    else
      var closed := Close(r, stream, ClosedFclose, site);
      Closing(closed.next, platform,
              if platform != 0 then PlatformFailure else closed.fault, true)
  }

  /** What the deletion guard decides. */
  datatype Verdict = Allowed(fault: Fault) | Denied

  /** The (bounded) filename is indexed to a stream whose entry is still open. */
  predicate HeldOpen(r: Registry, key: string) {
    key in r.index && r.index[key] in r.entries && !r.entries[r.index[key]].isClosed
  }

  /** `can_be_removed_check`: a read-only query over the two stores. */
  function CanBeRemoved(r: Registry, filename: string, limit: nat): (v: Verdict)
    ensures var key := Bounded(filename, limit);
      && (v.Denied? <==> key != "" && HeldOpen(r, key))
      && (v == Allowed(EmptyName) <==> key == "")
      && (v == Allowed(Corrupted) <==> key != "" && key in r.index && r.index[key] !in r.entries)
    ensures v.Allowed? ==> v.fault in {NoFault, EmptyName, Corrupted}
    ensures Valid(r) ==> v != Allowed(Corrupted)
  {
    var key := Bounded(filename, limit);
    if key == "" then Allowed(EmptyName)
    else if key !in r.index then Allowed(NoFault)
    else if r.index[key] !in r.entries then Allowed(Corrupted)
    else if r.entries[r.index[key]].isClosed then Allowed(NoFault)
    else Denied
  }

  /** The return value of `filetrack_remove`, and whether the real `remove` ran. */
  datatype Removal = Removal(code: int, fault: Fault, platformCalled: bool)

  /** `filetrack_remove`; `platform` is what the real `remove` returns if it is
      called. The registry is not changed. */
  function Remove(r: Registry, filename: Option<string>, limit: nat, platform: int): (d: Removal)
    ensures filename.None? || filename.value == "" || limit < 1 ==>
      d == Removal(1, InvalidArgument, false)
    ensures filename.Some? && filename.value != "" && limit >= 1 ==>
      && (d.platformCalled <==> !(r.initialized && HeldOpen(r, Bounded(filename.value, limit))))
      && (d.platformCalled ==> d.code == platform)
      && (!d.platformCalled ==> d.code == 1 && d.fault == InvalidArgument)
    ensures Valid(r) && d.platformCalled ==> (d.fault == NoFault <==> platform == 0)
  {
    if filename.None? || filename.value == "" || limit < 1 then Removal(1, InvalidArgument, false)
    else
      var verdict := if r.initialized then CanBeRemoved(r, filename.value, limit) else Allowed(NoFault);
      match verdict
      case Denied => Removal(1, InvalidArgument, false)
      case Allowed(f) =>
        Removal(platform, if f != NoFault then f else if platform != 0 then PlatformFailure else NoFault, true)
  }
}

=== FILE: types.dfy ===
/** Values shared by the file-handle tracking registry: streams, the two
    lifecycle enums, call sites, tracking entries and the fault a call reports. */
module Types {

  datatype Option<+T> = None | Some(value: T)

  /** A `FILE*` as the registry sees it: only its identity matters.
      `Null` is the null pointer; `Stdin`, `Stdout` and `Stderr` are the three
      standard streams; every other stream is some `Handle`. */
  datatype Stream = Null | Stdin | Stdout | Stderr | Handle(id: nat)

  predicate IsStandard(s: Stream) {
    s == Stdin || s == Stdout || s == Stderr
  }

  /** FileOpenType: how an entry came to exist. */
  datatype OpenType = NotOpen | OpenFopen | OpenTmpfile | OpenFreopen | OpenUnknown

  /** FileClosedType: how an entry was closed, if it was. */
  datatype ClosedType = NotClosed | ClosedFclose | ClosedFreopen | ClosedUnknown

  /** The `(__FILE__, __LINE__)` pair a caller passes in. */
  datatype Site = Site(file: string, line: int)

  /** FileTrackEntry in its diagnostic layout. The stream itself is the key of
      the entry table. A `None` site is a NULL file pointer with line 0. */
  datatype Entry = Entry(
    filename: string,
    mode: string,
    openType: OpenType,
    closedType: ClosedType,
    isClosed: bool,
    openSite: Site,
    modeChangeSite: Option<Site>,
    closeSite: Option<Site>)

  /** The closed status, the close kind and the close site agree. */
  predicate Consistent(e: Entry) {
    && (e.isClosed <==> e.closedType != NotClosed)
    && (e.isClosed <==> e.closeSite.Some?)
  }

  /** What a call leaves behind in `errno` / `filetrack_errfunc`, as a single
      kind: the first failure met on the call's path. */
  datatype Fault =
    | NoFault          // nothing recorded
    | InvalidArgument  // errno = EINVAL
    | NotPermitted     // errno = EPERM: the registry did not exist yet, so the stream was not tracked
    | Untracked        // filetrack_errfunc only: no entry for the stream
    | Corrupted        // errno = EPROTO: an index row names a stream that has no entry
    | EmptyName        // filetrack_errfunc only: the bounded filename length came out 0
    | CopyFailed       // filetrack_errfunc only: a bounded string copy returned NULL
    | PlatformFailure  // the real fopen, freopen, fclose or remove failed
    | Fatal            // the process exits

  /** FT_MODE_LEN_MAX: the bound on a stored mode string. */
  const ModeLenMax: nat := 16

  /** The mode `tmpfile` stores; it exempts the entry from the filename index. */
  const TmpfileMode: string := "(tmpfile)"

  /** The placeholder filename, and the bound it is copied with. */
  const UnknownName: string := "unknown"
  const UnknownNameLimit: nat := 8

  /** The value of `EOF`. */
  const EOF: int := -1

  /** The call site the exit sweep passes when it force-closes a stream. */
  const QuitSite: Site := Site("filetrack.c", 793)

  /** `mutils_strndup(s, limit)`: a copy of at most `limit` characters of `s`.
      Strings are the characters before the terminating NUL. */
  function Bounded(s: string, limit: nat): (r: string)
    ensures r <= s
    ensures |r| <= limit
    ensures |r| == |s| || |r| == limit
  {
    if |s| <= limit then s else s[..limit]
  }

  /** The `strncmp(stored, "(tmpfile)", 10) == 0` test compares the NUL too, so
      it holds of the stored mode exactly when the caller passed "(tmpfile)". */
  lemma TmpfileModeExact(mode: string)
    ensures Bounded(mode, ModeLenMax) == TmpfileMode <==> mode == TmpfileMode
  {
    if Bounded(mode, ModeLenMax) == TmpfileMode {
      assert |TmpfileMode| == 9;
      assert |mode| <= ModeLenMax;
    }
  }
}
